=== FILE: README.md ===
# Task manager API — Dafny model of the request handlers

The service keeps a list of tasks (`id`, `title`, `description`, `completed`)
in one JSON file and serves five routes over it: `GET /tasks`,
`GET /tasks/:id`, `POST /tasks`, `PUT /tasks/:id` and `DELETE /tasks/:id`.
POST and PUT first check the request body and answer 400 without touching
the file when it is malformed. Otherwise a handler loads the whole list,
works on it in memory and, for a successful change, writes the whole list
back.

This project models the in-memory part of those handlers as pure functions.

- **Store.** A load is a given `seq<Task>`.
- **Replies.** Each handler returns a `Reply`: a status (`Ok`, `Created`,
  `BadRequest`, `NotFound`), a JSON payload, and `write`. `write` is
  `Some(s)` when the handler overwrites the file with `s`, and `None` when it
  writes nothing.
- **Path ids.** A path id is `Option<int>`. `None` stands for `parseInt`
  returning NaN, which equals no stored id.
- **Request bodies.** A body is three JSON values of which only the type is
  inspected. Validation is the predicate `Tasks.ValidBody`.

Files:

- `Wrappers.dfy`: the `Option` type.
- `Doubles.dfy`: integer addition as JavaScript numbers (IEEE 754 doubles)
  perform it: exact for magnitudes up to 2^53, rounded to the nearest double
  beyond.
- `Tasks.dfy`: the task record and the request-body fields. It also holds
  body validation, the first-match search behind `find`/`findIndex`, and the
  id filter behind `filter`.
- `Handlers.dfy`: the five handlers, the routing function `Handle`, and
  `Step`, which gives the store after one request.
- `Properties.dfy`: results that relate several requests:
  - the id-ordering invariant every request keeps;
  - create-then-get, update-then-get and delete-then-get;
  - update idempotence;
  - delete removing exactly one entry when ids are unique;
  - the effects of taking the next id from the last task;
  - four example requests: POST on a one-task store, PUT /tasks/1, DELETE of
    an absent id, and POST with a string `completed`.

The model follows the code as written.

- **Next id.** `POST` takes the next id from the LAST stored task
  (`app.js:89`), not from the largest id, and adds 1 in JavaScript numbers
  (`app.js:91`). The model proves that this is harmless while ids are
  strictly increasing and the last id is in [-2^53, 2^53), and that every
  request keeps ids strictly increasing under that bound (`StepKeepsIncreasing`).
  Three concrete lemmas show what happens otherwise:
  - deleting the last task frees its id for the next `POST`
    (`DeletedIdIsReused`);
  - in an out-of-order store, `POST` hands out an id that is already in use,
    and `GET` then returns the older task (`OutOfOrderStoreShadowsCreatedTask`);
  - at a last id of 2^53 the sum rounds back to 2^53, so `POST` repeats that
    id and `GET` returns the older task (`IdStallsAtTwoTo53`).
- **Delete.** `DELETE` removes EVERY task carrying the id (`app.js:186`).
  Removing exactly one entry only holds when ids are unique;
  `DeleteRemovesExactlyOne` proves it for every store with unique ids.

## Model

| member | source | states |
|---|---|---|
| Doubles.Spacing | app.js:91 | neighbouring doubles are 1 apart exactly below 2^53 and further apart above |
| Doubles.RoundMagnitude | app.js:91 | a magnitude is moved to a double (a multiple of the spacing) at most half a spacing away; on a tie it goes to the even significand; it is left alone when it already is a double, in particular at or below 2^53 |
| Doubles.ToDouble | app.js:91 | an integer becomes a double at most half a spacing away in magnitude, ties to the even significand; one between -2^53 and 2^53 is kept exactly, and rounding never flips the sign |
| Doubles.AddOne | app.js:91 | `x + 1` on a number is the double nearest the exact sum (within half a spacing, ties to the even significand), and exactly x + 1 when x lies in [-2^53 - 1, 2^53) |
| Doubles.SpacingAtTwoTo53 | app.js:91 | doubles are 2 apart at 2^53 and 2^53 + 1 |
| Doubles.AddOneStallsAtTwoTo53 | app.js:91 | `2^53 + 1` evaluates to 2^53 |
| Doubles.AddOneStallsAtMinusTwoTo54 | app.js:91 | `-2^54 + 1` evaluates to -2^54, so the lower bound -2^53 on the last id is needed as well |
| Tasks.ValidBody | app.js:69-75 | a body passes the check of POST (and the same check of PUT at app.js:127-133) exactly when it is the string/string/boolean encoding of some task's fields |
| Tasks.Matches | app.js:50 | a task matches a path id (the same strict comparison is used at app.js:145 and 186) exactly when the id parsed to a number equal to the task's id; NaN matches nothing |
| Tasks.TaskFrom | app.js:90-95 | the task built from a valid body carries the given id, and the body is exactly the string/string/boolean encoding of its three fields |
| Tasks.FindIndex | app.js:145 | the index found is the first whose id equals the path id; none is found exactly when no task carries it |
| Tasks.RemoveId | app.js:186 | the filter's result is a subsequence of the input (order kept). Each task occurs as often as in the input if it does not carry the id, and never if it does. The length is unchanged exactly when no task carries the id |
| Handlers.List | app.js:30-31 | GET /tasks answers 200 with the stored sequence in stored order and writes nothing |
| Handlers.Get | app.js:49-56 | GET /tasks/:id answers with the first task carrying the id, or 404 "Task not found" exactly when none does. A NaN id is always 404. Nothing is written |
| Handlers.NextId | app.js:89-91 | the new id is 1 on an empty store, otherwise the last task's id plus one as a JavaScript sum, which is exactly last id + 1 while the last id is in [-2^53, 2^53) |
| Handlers.Create | app.js:69-110 | a body whose title or description is not a string, or whose completed is not a boolean, gets 400 "Invalid task data" with no write; otherwise 201 with a task whose id is the next id, whose fields are the body's, and which is appended at the end of the written store |
| Handlers.Update | app.js:127-161 | an invalid body gets 400 with no write. An id nobody carries gets 404 with no write. Otherwise only the first matching index is replaced, by the body's fields under the same id; every other index and the length stay the same, and the reply carries the replaced task |
| Handlers.Delete | app.js:186-201 | 404 with no write exactly when no task carries the id (always for NaN); otherwise 200 with the deleted-id message and the filtered store is written |
| Handlers.Code | app.js:52-189 | Ok is sent as 200 (the default of `res.json`), Created as 201, BadRequest as 400 and NotFound as 404, and no two statuses share a code |
| Properties.IncreasingIdsAreUnique | app.js:89-91 | strictly increasing ids are pairwise distinct |
| Properties.SubsequenceMembers | app.js:186 | every task the filter keeps comes from the original store |
| Properties.SubsequenceKeepsIncreasing | app.js:186 | dropping tasks with the filter keeps ids strictly increasing |
| Properties.RemoveAbsentId | app.js:186-188 | filtering by an id nobody carries returns the store unchanged |
| Properties.DeleteRemovesExactlyOne | app.js:186-194 | with unique ids, a successful delete writes the store minus exactly the matching entry, the rest in order |
| Properties.OrderedDeleteRemovesExactlyOne | app.js:186-194 | the same for a store whose ids strictly increase |
| Properties.RemoveTheOnlyMatch | app.js:186 | with unique ids, the filter removes exactly the first matching index |
| Properties.CreateThenGet | app.js:89-97 | on a strictly increasing store whose last id is in [-2^53, 2^53), create keeps ids strictly increasing, and GET of the returned id yields the created task |
| Properties.UpdateKeepsIds | app.js:151 | an update leaves the length and the id at every index unchanged |
| Properties.UpdateThenGet | app.js:145-161 | after a successful update, GET of the same id returns the task the update replied with |
| Properties.UpdateIsIdempotent | app.js:145-151 | repeating a successful update with the same body produces the same reply and the same written store |
| Properties.DeleteThenGetMisses | app.js:186-190 | after a successful delete no task carries the id, so GET and a second DELETE of it both answer 404 |
| Properties.StepKeepsIncreasing | app.js:89-186 | every request (list, get, create, update, delete) keeps ids strictly increasing and therefore unique, provided a create finds its last id in [-2^53, 2^53) |
| Properties.ListAfterCreate | app.js:30-31 | after a valid POST, GET /tasks lists the earlier tasks in order followed by the created task |
| Properties.IdStallsAtTwoTo53 | app.js:89-91 | with a last id of 2^53, POST appends a second task with id 2^53 and GET of that id returns the older one |
| Properties.WritesOnlyOnSuccess | app.js:69-190 | a request writes exactly when it is a 201 create or a 200 update/delete. A 400 only comes from create or update. A 400 or 404 leaves the store as it was |
| Properties.DeletedIdIsReused | app.js:89 | deleting the last task and then creating one reuses the deleted id |
| Properties.OutOfOrderStoreShadowsCreatedTask | app.js:89-97 | in a store whose last id is not its largest, create hands out an id already in use and GET returns the older task |
| Properties.ScenarioCreate | app.js:84-110 | POST on a one-task store answers 201 with id 2 and leaves two tasks |
| Properties.ScenarioUpdate | app.js:141-161 | PUT /tasks/1 replaces the three fields and keeps id 1 |
| Properties.ScenarioDeleteMissing | app.js:186-190 | DELETE of an absent id answers 404 "Task not found" with no write |
| Properties.ScenarioCreateRejectsStringCompleted | app.js:69-75 | POST with completed as a string answers 400 "Invalid task data" with no write |

## Left out

- File reads and writes (`fs.readFile`, `fs.writeFile`) and their 500 replies: a load is a parameter and a write is `Reply.write`.
- `JSON.parse`/`JSON.stringify`, the `{ tasks: [...] }` envelope, the 2-space formatting, and parse-failure 500 replies. This is library serialisation.
- Stored documents whose `tasks` field is missing or not an array (`|| []` against `Array.isArray`), and stored ids that are not integers. These only concern malformed documents. As a result, `lastId + 1` on a non-numeric id is not modelled. Stored ids are arbitrary integers; the model does not exclude integers above 2^53 that no double holds, which a parsed file cannot contain.
- Doubles.ToDouble: sums that round to 2^1024 or more (magnitude 2^1024 - 2^970 and up), which JavaScript turns into Infinity, are rounded as if the exponent were unbounded; ids that large are not finite numbers and cannot be stored.
- `parseInt` on the path segment: abstracted to `Option<int>`, with `None` for NaN.
- A request without a parsed body, where destructuring `req.body` would throw. This is framework behaviour.
- Express routing, middleware, `app.listen` and logging (app.js:1-19).
- Concurrent requests and the lost update between an unsynchronised read and write. This is about concurrency; each request is modelled as one atomic `Step`.
- The text of the delete confirmation: the model keeps only the deleted id in `DeletedMessage`, since the message is a string template over it.

=== FILE: Doubles.dfy ===
/**
 Integer arithmetic as JavaScript numbers do it. A JavaScript number is an
 IEEE 754 double, so the integer sum `lastId + 1` is rounded to the nearest
 double, ties to the one with an even significand. Below 2^53 every integer
 is a double and the sum is exact; from 2^53 on, doubles are spaced 2, 4, 8,
 ... apart and adding 1 can leave the value where it was.
 */
module Doubles {

  /** 2^53: the first integer above which not every integer is a double. */
  const TwoTo53: int := 0x20_0000_0000_0000

  /** `Number.MAX_SAFE_INTEGER`, 2^53 - 1. */
  const MaxSafeInteger: int := TwoTo53 - 1

  /** The distance between neighbouring doubles around the magnitude `m`: 1 below 2^53, doubling per binade above. */
  function Spacing(m: nat): (u: int)
    ensures u >= 1
    ensures m < TwoTo53 <==> u == 1
  {
    if m < TwoTo53 then 1 else 2 * Spacing(m / 2)
  }

  /** Just above 2^53 the doubles are two apart. */
  lemma SpacingAtTwoTo53()
    ensures Spacing(TwoTo53) == 2 && Spacing(TwoTo53 + 1) == 2
  {
  }

  /** Rounding `m` down or up to a multiple of `u` lands on a multiple, one apart in quotient. */
  lemma DivFacts(m: nat, u: int)
    requires u >= 1
    ensures (m - m % u) % u == 0 && (m - m % u) / u == m / u
    ensures (m - m % u + u) % u == 0 && (m - m % u + u) / u == m / u + 1
  {
    var q := m / u;
    assert m - m % u == q * u;
    assert m - m % u + u == (q + 1) * u;
    MultipleFacts(q, u);
    MultipleFacts(q + 1, u);
  }

  /** Dividing a multiple of `u` by `u` gives back the factor and no remainder. */
  lemma MultipleFacts(q: int, u: int)
    requires u >= 1
    ensures (q * u) % u == 0 && (q * u) / u == q
  {
    var d := (q * u) / u;
    var r := (q * u) % u;
    assert q * u == d * u + r;
    assert (q - d) * u == r by {
      assert (q - d) * u == q * u - d * u;
    }
    if q - d >= 1 {
      ScaleAtLeast(q - d, u);
    } else if q - d <= -1 {
      ScaleAtLeast(d - q, u);
    }
  }

  lemma {:induction false} ScaleAtLeast(k: int, u: int)
    requires k >= 1 && u >= 1
    ensures k * u >= u
    decreases k
  {
    if k > 1 {
      ScaleAtLeast(k - 1, u);
      assert k * u == (k - 1) * u + u;
    }
  }

  /** The magnitude of an integer. */
  function Abs(n: int): nat {
    if n < 0 then -n else n
  }

  /**
   The double nearest to the magnitude `m`: a multiple of the spacing at most
   half a spacing away, and on a tie the one whose significand is even.
   */
  function RoundMagnitude(m: nat): (r: int)
    ensures r >= 0
    ensures r % Spacing(m) == 0
    ensures -Spacing(m) <= 2 * (r - m) <= Spacing(m)
    ensures 2 * (m % Spacing(m)) == Spacing(m) ==> (r / Spacing(m)) % 2 == 0
    ensures m % Spacing(m) == 0 ==> r == m
    ensures m <= TwoTo53 ==> r == m
  {
    var u := Spacing(m);
    var rem := m % u;
    var below := m - rem;
    SpacingAtTwoTo53();
    DivFacts(m, u);
    if 2 * rem < u || (2 * rem == u && (m / u) % 2 == 0) then below
    else below + u
  }

  /** The integer `n` as a JavaScript number holds it: rounded to the nearest double, ties to the even significand, symmetrically around 0. */
  function ToDouble(n: int): (r: int)
    ensures Abs(r) % Spacing(Abs(n)) == 0
    ensures -Spacing(Abs(n)) <= 2 * (Abs(r) - Abs(n)) <= Spacing(Abs(n))
    ensures 2 * (Abs(n) % Spacing(Abs(n))) == Spacing(Abs(n)) ==> (Abs(r) / Spacing(Abs(n))) % 2 == 0
    ensures -TwoTo53 <= n <= TwoTo53 ==> r == n
    ensures (n < 0 <==> r < 0) || r == 0
  {
    if n >= 0 then RoundMagnitude(n) else -RoundMagnitude(-n)
  }

  /** JavaScript `x + 1` on an integer-valued number: the double nearest to the exact sum, ties to the even significand. */
  function AddOne(x: int): (r: int)
    ensures Abs(r) % Spacing(Abs(x + 1)) == 0
    ensures -Spacing(Abs(x + 1)) <= 2 * (Abs(r) - Abs(x + 1)) <= Spacing(Abs(x + 1))
    ensures 2 * (Abs(x + 1) % Spacing(Abs(x + 1))) == Spacing(Abs(x + 1)) ==> (Abs(r) / Spacing(Abs(x + 1))) % 2 == 0
    ensures -TwoTo53 - 1 <= x < TwoTo53 ==> r == x + 1
  {
    ToDouble(x + 1)
  }

  /** At 2^53 adding one no longer moves the value: the sum is a tie and rounds back to 2^53. */
  lemma AddOneStallsAtTwoTo53()
    ensures AddOne(TwoTo53) == TwoTo53
  {
  }

  /** The lower bound matters too: -2^54 + 1 is a tie between -2^54 and -2^54 + 2 and rounds back to -2^54. */
  lemma AddOneStallsAtMinusTwoTo54()
    ensures AddOne(-2 * TwoTo53) == -2 * TwoTo53
  {
    assert Spacing(2 * TwoTo53 - 1) == 2 by {
      assert Spacing((2 * TwoTo53 - 1) / 2) == 1;
    }
  }
}

=== FILE: Handlers.dfy ===
/**
 The five request handlers of the task service, with the file store taken out:
 each handler receives the task sequence a load would return and answers with
 a status, a JSON payload and, for a successful change, the sequence it writes
 back over the store.
 */
module Handlers {
  import opened Wrappers
  import opened Tasks
  import opened Doubles

  /** The response statuses the handlers produce once the store has been loaded. */
  datatype Status = Ok | Created | BadRequest | NotFound

  /** The HTTP status code sent for each status; a reply without an explicit status is a 200. */
  function Code(st: Status): (c: int)
    ensures c == 200 <==> st == Ok
    ensures c == 201 <==> st == Created
    ensures c == 400 <==> st == BadRequest
    ensures c == 404 <==> st == NotFound
  {
    match st
    case Ok => 200
    case Created => 201
    case BadRequest => 400
    case NotFound => 404
  }

  /** The JSON payload of a response. `DeletedMessage(id)` is `{ message: "Task with ID <id> deleted successfully." }`. */
  datatype Payload =
    | TaskList(tasks: seq<Task>)
    | OneTask(task: Task)
    | DeletedMessage(id: int)
    | Error(message: string)

  const InvalidTaskData: string := "Invalid task data"
  const TaskNotFound: string := "Task not found"

  /** A handler's answer. `write` is `Some(s)` when the handler overwrites the store with `s`, `None` when it writes nothing. */
  datatype Reply = Reply(status: Status, payload: Payload, write: Option<seq<Task>>)

  /** The store a later request loads after this reply. */
  function StoreAfter(store: seq<Task>, r: Reply): seq<Task> {
    if r.write.Some? then r.write.value else store
  }

  /** The answer to a body that fails validation: nothing is loaded or written. */
  const RejectBody: Reply := Reply(BadRequest, Error(InvalidTaskData), None)

  /** The answer when no task carries the path id: nothing is written. */
  const Missing: Reply := Reply(NotFound, Error(TaskNotFound), None)

  /** GET /tasks: the whole sequence, in stored order. */
  function List(store: seq<Task>): (r: Reply)
    ensures r.status == Ok && r.write.None?
    ensures r.payload.TaskList? && r.payload.tasks == store
  {
    Reply(Ok, TaskList(store), None)
  }

  /** GET /tasks/:id: the first task carrying the id, else not found. */
  function Get(store: seq<Task>, pid: Option<int>): (r: Reply)
    ensures r.write.None?
    ensures NoMatch(store, pid) <==> r == Missing
    ensures forall i :: FirstMatch(store, pid, i) ==> r == Reply(Ok, OneTask(store[i]), None)
    ensures pid.None? ==> r == Missing
  {
    match FindIndex(store, pid)
    case None => Missing
    case Some(i) => Reply(Ok, OneTask(store[i]), None)
  }

  /**
   The id POST gives a new task: the id of the LAST stored task (0 for an empty
   store) plus one, added as JavaScript numbers are.
   */
  function NextId(store: seq<Task>): (id: int)
    ensures |store| == 0 ==> id == 1
    ensures |store| > 0 && -TwoTo53 <= store[|store| - 1].id < TwoTo53 ==> id == store[|store| - 1].id + 1
    ensures |store| > 0 ==> id == AddOne(store[|store| - 1].id)
  {
    AddOne(if |store| > 0 then store[|store| - 1].id else 0)
  }

  /** POST /tasks: validate the body, then append a task under the next id. */
  function Create(store: seq<Task>, body: Body): (r: Reply)
    ensures !ValidBody(body) <==> r == RejectBody
    ensures ValidBody(body) ==>
      && r.status == Created
      && r.payload.OneTask?
      && r.write == Some(store + [r.payload.task])
    ensures ValidBody(body) ==>
      && r.payload.OneTask?
      && r.payload.task.id == NextId(store)
      && BodyOf(r.payload.task) == body
  {
    if !ValidBody(body) then RejectBody
    else
      var t := TaskFrom(NextId(store), body);
      Reply(Created, OneTask(t), Some(store + [t]))
  }

  /** The store after the task at index `i` was replaced by `t`, with every other index untouched. */
  predicate ReplacedAt(store: seq<Task>, w: seq<Task>, i: int, t: Task) {
    && |w| == |store|
    && 0 <= i < |w|
    && w[i] == t
    && forall j :: 0 <= j < |w| && j != i ==> w[j] == store[j]
  }

  /** PUT /tasks/:id: validate the body, then replace the first task carrying the id; the path id is kept. */
  function Update(store: seq<Task>, pid: Option<int>, body: Body): (r: Reply)
    ensures !ValidBody(body) ==> r == RejectBody
    ensures ValidBody(body) && NoMatch(store, pid) ==> r == Missing
    ensures ValidBody(body) && !NoMatch(store, pid) ==> r.status == Ok && r.write.Some? && r.payload.OneTask?
    ensures forall i :: ValidBody(body) && FirstMatch(store, pid, i) ==>
      && r.write.Some?
      && ReplacedAt(store, r.write.value, i, r.payload.task)
      && r.payload.task.id == store[i].id
      && BodyOf(r.payload.task) == body
  {
    if !ValidBody(body) then RejectBody
    else
      match FindIndex(store, pid)
      case None => Missing
      case Some(i) =>
        var t := TaskFrom(pid.value, body);
        var w := store[i := t];
        Reply(Ok, OneTask(w[i]), Some(w))
  }

  /** DELETE /tasks/:id: drop every task carrying the id; not found when nothing was dropped. */
  function Delete(store: seq<Task>, pid: Option<int>): (r: Reply)
    ensures NoMatch(store, pid) <==> r == Missing
    ensures !NoMatch(store, pid) ==>
      && pid.Some?
      && r.status == Ok
      && r.payload == DeletedMessage(pid.value)
      && r.write == Some(RemoveId(store, pid))
    ensures pid.None? ==> r == Missing
  {
    var filtered := RemoveId(store, pid);
    if |store| == |filtered| then Missing
    else Reply(Ok, DeletedMessage(pid.value), Some(filtered))
  }

  /** The five routes, with the path id already parsed. */
  datatype Request =
    | ListTasks
    | GetTask(id: Option<int>)
    | CreateTask(body: Body)
    | UpdateTask(id: Option<int>, body: Body)
    | DeleteTask(id: Option<int>)

  /** Route a request to its handler. */
  function Handle(store: seq<Task>, req: Request): Reply {
    match req
    case ListTasks => List(store)
    case GetTask(pid) => Get(store, pid)
    case CreateTask(body) => Create(store, body)
    case UpdateTask(pid, body) => Update(store, pid, body)
    case DeleteTask(pid) => Delete(store, pid)
  }

  /** The store after one request. */
  function Step(store: seq<Task>, req: Request): seq<Task> {
    StoreAfter(store, Handle(store, req))
  }
}

=== FILE: Properties.dfy ===
/**
 Properties that relate several requests: the id-ordering invariant every
 handler keeps, create-then-get, update-then-get, delete-then-get, and the
 consequences of assigning ids from the last stored task, as a JavaScript
 number, rather than from the largest one.
 */
module Properties {
  import opened Wrappers
  import opened Tasks
  import opened Handlers
  import opened Doubles

  /** Ids strictly increase along the store. A store built only by these handlers from an empty one has this shape while every POST finds its last id below 2^53. */
  ghost predicate StrictlyIncreasing(s: seq<Task>) {
    forall i, j :: 0 <= i < j < |s| ==> s[i].id < s[j].id
  }

  /** No two stored tasks share an id. */
  ghost predicate UniqueIds(s: seq<Task>) {
    forall i, j :: 0 <= i < |s| && 0 <= j < |s| && i != j ==> s[i].id != s[j].id
  }

  /** `lastId + 1` is exact: the last id lies where every integer is a JavaScript number. */
  predicate RoomForNextId(s: seq<Task>) {
    |s| > 0 ==> -TwoTo53 <= s[|s| - 1].id < TwoTo53
  }

  /** Strictly increasing ids are pairwise distinct. */
  lemma IncreasingIdsAreUnique(s: seq<Task>)
    requires StrictlyIncreasing(s)
    ensures UniqueIds(s)
  {
  }

  /** Dropping the first task keeps the ordering. */
  lemma TailKeepsIncreasing(s: seq<Task>)
    requires |s| > 0 && StrictlyIncreasing(s)
    ensures StrictlyIncreasing(s[1..])
  {
  }

  /** Dropping the first task keeps ids distinct. */
  lemma TailKeepsUnique(s: seq<Task>)
    requires |s| > 0 && UniqueIds(s)
    ensures UniqueIds(s[1..])
  {
  }

  /** Every element of a subsequence occurs in the sequence it was taken from. */
  lemma {:induction false} SubsequenceMembers<T>(a: seq<T>, b: seq<T>)
    requires IsSubsequence(a, b)
    ensures forall k :: 0 <= k < |a| ==> a[k] in b
    decreases |b|
  {
    if |a| > 0 {
      if a[0] == b[0] && IsSubsequence(a[1..], b[1..]) {
        SubsequenceMembers(a[1..], b[1..]);
        forall k | 0 < k < |a| ensures a[k] in b {
          assert a[k] == a[1..][k - 1];
        }
      } else {
        SubsequenceMembers(a, b[1..]);
      }
    }
  }

  /** Dropping tasks never breaks the id ordering. */
  lemma {:induction false} SubsequenceKeepsIncreasing(a: seq<Task>, b: seq<Task>)
    requires IsSubsequence(a, b) && StrictlyIncreasing(b)
    ensures StrictlyIncreasing(a)
    decreases |b|
  {
    if |a| > 0 {
      TailKeepsIncreasing(b);
      if a[0] == b[0] && IsSubsequence(a[1..], b[1..]) {
        SubsequenceKeepsIncreasing(a[1..], b[1..]);
        SubsequenceMembers(a[1..], b[1..]);
        forall i, j | 0 <= i < j < |a| ensures a[i].id < a[j].id {
          if i == 0 {
            assert a[j] == a[1..][j - 1];
            var m :| 0 <= m < |b[1..]| && b[1..][m] == a[j];
            assert b[m + 1] == a[j];
          } else {
            assert a[i] == a[1..][i - 1] && a[j] == a[1..][j - 1];
          }
        }
      } else {
        SubsequenceKeepsIncreasing(a, b[1..]);
      }
    }
  }

  /** Filtering by an id nobody carries leaves the sequence as it was. */
  lemma {:induction false} RemoveAbsentId(s: seq<Task>, pid: Option<int>)
    requires NoMatch(s, pid)
    ensures RemoveId(s, pid) == s
  {
    if |s| > 0 {
      RemoveAbsentId(s[1..], pid);
      assert s == [s[0]] + s[1..];
    }
  }

  /**
   With unique ids, a DELETE that finds its task drops exactly that one entry
   and keeps the rest in order. Without uniqueness it drops every task
   carrying the id.
   */
  lemma {:induction false} DeleteRemovesExactlyOne(s: seq<Task>, pid: Option<int>, i: int)
    requires UniqueIds(s) && FirstMatch(s, pid, i)
    ensures Delete(s, pid).write == Some(s[..i] + s[i + 1..])
  {
    RemoveTheOnlyMatch(s, pid, i);
  }

  /** In particular a store whose ids strictly increase, the shape every request keeps, loses exactly one entry. */
  lemma OrderedDeleteRemovesExactlyOne(s: seq<Task>, pid: Option<int>, i: int)
    requires StrictlyIncreasing(s) && FirstMatch(s, pid, i)
    ensures Delete(s, pid).write == Some(s[..i] + s[i + 1..])
  {
    IncreasingIdsAreUnique(s);
    DeleteRemovesExactlyOne(s, pid, i);
  }

  /** With unique ids, the filter removes exactly the first match. */
  lemma {:induction false} RemoveTheOnlyMatch(s: seq<Task>, pid: Option<int>, i: int)
    requires UniqueIds(s) && FirstMatch(s, pid, i)
    ensures RemoveId(s, pid) == s[..i] + s[i + 1..]
    decreases i
  {
    if i == 0 {
      RemoveLeadingOnlyMatch(s, pid);
    } else {
      TailKeepsUnique(s);
      TailKeepsLaterMatch(s, pid, i);
      RemoveTheOnlyMatch(s[1..], pid, i - 1);
      assert !Matches(s[0], pid);
      RemoveKeepsHead(s, pid);
      ConsSplice(s, i);
    }
  }

  /** The filter keeps a leading task that does not carry the id. */
  lemma RemoveKeepsHead(s: seq<Task>, pid: Option<int>)
    requires |s| > 0 && !Matches(s[0], pid)
    ensures RemoveId(s, pid) == [s[0]] + RemoveId(s[1..], pid)
  {
  }

  /** Removing index `i` from `s` is `s[0]` followed by removing index `i - 1` from the tail. */
  lemma ConsSplice<T>(s: seq<T>, i: int)
    requires 0 < i < |s|
    ensures [s[0]] + (s[1..][..i - 1] + s[1..][i..]) == s[..i] + s[i + 1..]
  {
    assert s[..i] == [s[0]] + s[1..][..i - 1];
    assert s[i + 1..] == s[1..][i..];
  }

  /** With unique ids, a matching first task is the only match. */
  lemma RemoveLeadingOnlyMatch(s: seq<Task>, pid: Option<int>)
    requires UniqueIds(s) && FirstMatch(s, pid, 0)
    ensures RemoveId(s, pid) == s[1..]
  {
    assert NoMatch(s[1..], pid) by {
      forall j | 0 <= j < |s[1..]| ensures !Matches(s[1..][j], pid) {
        assert s[1..][j] == s[j + 1] && s[0].id != s[j + 1].id;
      }
    }
    RemoveAbsentId(s[1..], pid);
  }

  /** A first match past index 0 is, one position earlier, the first match of the tail. */
  lemma TailKeepsLaterMatch(s: seq<Task>, pid: Option<int>, i: int)
    requires FirstMatch(s, pid, i) && i > 0
    ensures FirstMatch(s[1..], pid, i - 1)
  {
    forall j | 0 <= j < i - 1 ensures !Matches(s[1..][j], pid) {
      assert s[1..][j] == s[j + 1];
    }
  }

  /**
   While the last id is in [-2^53, 2^53), appending under the next id keeps ids
   strictly increasing, and the created task is the one GET finds.
   */
  lemma CreateThenGet(store: seq<Task>, body: Body)
    requires StrictlyIncreasing(store) && RoomForNextId(store) && ValidBody(body)
    ensures Create(store, body).write.Some?
    ensures StrictlyIncreasing(Create(store, body).write.value)
    ensures Get(Create(store, body).write.value, Some(Create(store, body).payload.task.id))
         == Reply(Ok, OneTask(Create(store, body).payload.task), None)
  {
    var r := Create(store, body);
    var t := r.payload.task;
    var w := r.write.value;
    assert w == store + [t];
    forall j | 0 <= j < |store| ensures store[j].id < t.id {
      assert store[j].id <= store[|store| - 1].id;
    }
    assert FirstMatch(w, Some(t.id), |store|) by {
      forall j | 0 <= j < |store| ensures !Matches(w[j], Some(t.id)) {
        assert w[j] == store[j];
      }
    }
  }

  /** An update keeps every stored id where it was. */
  lemma UpdateKeepsIds(store: seq<Task>, pid: Option<int>, body: Body)
    ensures |Step(store, UpdateTask(pid, body))| == |store|
    ensures forall j :: 0 <= j < |store| ==> Step(store, UpdateTask(pid, body))[j].id == store[j].id
  {
  }

  /** After a successful update, GET of the same id returns the updated task. */
  lemma UpdateThenGet(store: seq<Task>, pid: Option<int>, body: Body)
    requires ValidBody(body) && !NoMatch(store, pid)
    ensures Update(store, pid, body).write.Some?
    ensures Get(Update(store, pid, body).write.value, pid)
         == Reply(Ok, Update(store, pid, body).payload, None)
  {
  }

  /** Repeating an update with the same body writes back the same store. */
  lemma UpdateIsIdempotent(store: seq<Task>, pid: Option<int>, body: Body)
    requires ValidBody(body) && !NoMatch(store, pid)
    ensures Update(store, pid, body).write.Some?
    ensures Update(Update(store, pid, body).write.value, pid, body) == Update(store, pid, body)
  {
    var i := FindIndex(store, pid).value;
    var r := Update(store, pid, body);
    var w := r.write.value;
    assert ReplacedAt(store, w, i, r.payload.task);
    assert FirstMatch(w, pid, i);
    var r2 := Update(w, pid, body);
    assert ReplacedAt(w, r2.write.value, i, r2.payload.task);
    assert r2.payload.task == r.payload.task;
    assert r2.write.value == w by {
      forall j | 0 <= j < |w| ensures r2.write.value[j] == w[j] {
        if j == i { assert w[j] == r.payload.task; }
      }
    }
  }

  /** After a successful delete no task carries the id, so GET and a second DELETE both miss. */
  lemma DeleteThenGetMisses(store: seq<Task>, pid: Option<int>)
    requires Delete(store, pid).status == Ok
    ensures Delete(store, pid).write.Some?
    ensures Get(Delete(store, pid).write.value, pid) == Missing
    ensures Delete(Delete(store, pid).write.value, pid) == Missing
  {
  }

  /**
   Every request keeps ids strictly increasing, so a store that starts ordered
   stays ordered and duplicate-free, as long as a POST finds its last id in
   [-2^53, 2^53).
   */
  lemma StepKeepsIncreasing(store: seq<Task>, req: Request)
    requires StrictlyIncreasing(store)
    requires req.CreateTask? ==> RoomForNextId(store)
    ensures StrictlyIncreasing(Step(store, req))
    ensures UniqueIds(Step(store, req))
  {
    match req {
      case CreateTask(body) =>
        if ValidBody(body) { CreateThenGet(store, body); }
      case UpdateTask(pid, body) =>
        UpdateKeepsIds(store, pid, body);
      case DeleteTask(pid) =>
        if Delete(store, pid).write.Some? {
          SubsequenceKeepsIncreasing(RemoveId(store, pid), store);
        }
      case _ =>
    }
    IncreasingIdsAreUnique(Step(store, req));
  }

  /** Only a successful POST, PUT or DELETE writes; every other answer leaves the store as it was. */
  lemma WritesOnlyOnSuccess(store: seq<Task>, req: Request)
    ensures Handle(store, req).write.Some? <==>
      (Handle(store, req).status == Created ||
       (Handle(store, req).status == Ok && (req.UpdateTask? || req.DeleteTask?)))
    ensures Handle(store, req).status == BadRequest ==> req.CreateTask? || req.UpdateTask?
    ensures Handle(store, req).status in {BadRequest, NotFound} ==> Step(store, req) == store
  {
  }

  /** GET /tasks after a valid POST lists the earlier tasks in their order, then the created one. */
  lemma ListAfterCreate(store: seq<Task>, body: Body)
    requires ValidBody(body)
    ensures Create(store, body).payload.OneTask?
    ensures List(Step(store, CreateTask(body))).payload.tasks == store + [Create(store, body).payload.task]
  {
  }

  /**
   The bound of CreateThenGet is needed: JavaScript computes `lastId + 1` in
   doubles, and at 2^53 the sum rounds back to 2^53. POST then hands out the
   id of the last task again, and GET of that id returns the older task.
   */
  lemma IdStallsAtTwoTo53()
    ensures
      var store := [Task(TwoTo53, "A", "d", false)];
      var r := Create(store, Body(JsString("B"), JsString("e"), JsBool(true)));
      && r.payload == OneTask(Task(TwoTo53, "B", "e", true))
      && r.write == Some(store + [Task(TwoTo53, "B", "e", true)])
      && Get(r.write.value, Some(TwoTo53)) == Reply(Ok, OneTask(Task(TwoTo53, "A", "d", false)), None)
  {
  }

  /** Deleting the last task frees its id: the next POST hands the same id out again. */
  lemma DeletedIdIsReused()
    ensures
      var store := [Task(1, "A", "d", false), Task(2, "B", "e", true)];
      var afterDelete := Step(store, DeleteTask(Some(2)));
      var created := Create(afterDelete, Body(JsString("C"), JsString("f"), JsBool(false)));
      created.payload == OneTask(Task(2, "C", "f", false))
  {
  }

  /**
   The ordering hypothesis of CreateThenGet is needed: in a store whose last id
   is not its largest, POST hands out an id already in use and GET of that id
   returns the older task.
   */
  lemma OutOfOrderStoreShadowsCreatedTask()
    ensures
      var store := [Task(2, "A", "d", false), Task(1, "B", "e", false)];
      var r := Create(store, Body(JsString("C"), JsString("f"), JsBool(true)));
      && r.payload == OneTask(Task(2, "C", "f", true))
      && Get(r.write.value, Some(2)) == Reply(Ok, OneTask(Task(2, "A", "d", false)), None)
  {
  }

  /** POST on a one-task store appends the task with id 2. */
  lemma ScenarioCreate()
    ensures
      var store := [Task(1, "A", "d", false)];
      var r := Create(store, Body(JsString("B"), JsString("e"), JsBool(true)));
      && Code(r.status) == 201
      && r.payload == OneTask(Task(2, "B", "e", true))
      && r.write.Some? && |r.write.value| == 2
  {
  }

  /** PUT /tasks/1 on a one-task store replaces its fields and keeps id 1. */
  lemma ScenarioUpdate()
    ensures
      var store := [Task(1, "A", "d", false)];
      var r := Update(store, Some(1), Body(JsString("A2"), JsString("d2"), JsBool(true)));
      && Code(r.status) == 200
      && r.payload == OneTask(Task(1, "A2", "d2", true))
  {
  }

  /** DELETE /tasks/99 on a store without id 99 is a 404 with no write. */
  lemma ScenarioDeleteMissing()
    ensures
      var r := Delete([Task(1, "A", "d", false)], Some(99));
      && Code(r.status) == 404
      && r.payload == Error("Task not found")
      && r.write.None?
  {
  }

  /** POST with `completed` given as a string is a 400 with no write. */
  lemma ScenarioCreateRejectsStringCompleted()
    ensures
      var r := Create([Task(1, "A", "d", false)], Body(JsString("B"), JsString("e"), JsString("true")));
      && Code(r.status) == 400
      && r.payload == Error("Invalid task data")
      && r.write.None?
  {
  }
}

=== FILE: Tasks.dfy ===
/**
 The task records of the store, the request bodies the handlers receive, and
 the sequence operations the handlers are built from: the first-match search
 used by GET and PUT and the id filter used by DELETE.
 */
module Tasks {
  import opened Wrappers

  /** One stored task. */
  datatype Task = Task(id: int, title: string, description: string, completed: bool)

  /**
   A field of a parsed JSON request body, as far as `typeof` can tell it apart.
   `Undefined` is a field the body does not carry. Numbers, arrays and objects
   carry no payload: validation only ever asks for their type.
   */
  datatype JsValue =
    | Undefined
    | Null
    | JsBool(b: bool)
    | JsNumber
    | JsString(s: string)
    | JsArray
    | JsObject

  /** The three fields the create and update handlers read from the body; other fields are ignored. */
  datatype Body = Body(title: JsValue, description: JsValue, completed: JsValue)

  /** The body a client sends to describe the fields of `t`. */
  function BodyOf(t: Task): Body {
    Body(JsString(t.title), JsString(t.description), JsBool(t.completed))
  }

  /**
   The body check of POST and PUT: title and description are strings and
   completed is a boolean. Exactly the bodies that describe some task pass.
   */
  predicate ValidBody(b: Body): (ok: bool)
    ensures ok <==> exists t: Task :: b == BodyOf(t)
  {
    var ok := b.title.JsString? && b.description.JsString? && b.completed.JsBool?;
    assert ok ==> b == BodyOf(Task(0, b.title.s, b.description.s, b.completed.b));
    ok
  }

  /** The task a valid body describes, under the given id. */
  function TaskFrom(id: int, b: Body): (t: Task)
    requires ValidBody(b)
    ensures t.id == id
    ensures BodyOf(t) == b
  {
    Task(id, b.title.s, b.description.s, b.completed.b)
  }

  /** `task.id === id` where `id` came from `parseInt`: NaN (None) equals nothing. */
  predicate Matches(t: Task, pid: Option<int>): (m: bool)
    ensures pid.None? ==> !m
    ensures m <==> pid.Some? && pid.value == t.id
  {
    pid == Some(t.id)
  }

  /** No task of `s` carries the path id. */
  predicate NoMatch(s: seq<Task>, pid: Option<int>) {
    forall j :: 0 <= j < |s| ==> !Matches(s[j], pid)
  }

  /** `i` is the first index of `s` whose task carries the path id. */
  predicate FirstMatch(s: seq<Task>, pid: Option<int>, i: int) {
    && 0 <= i < |s|
    && Matches(s[i], pid)
    && forall j :: 0 <= j < i ==> !Matches(s[j], pid)
  }

  /** Linear scan for the first matching task, as `find` and `findIndex` do. */
  function FindIndex(s: seq<Task>, pid: Option<int>): (r: Option<nat>)
    ensures r.Some? ==> FirstMatch(s, pid, r.value)
    ensures r.None? <==> NoMatch(s, pid)
  {
    if |s| == 0 then None
    else if Matches(s[0], pid) then Some(0)
    else
      match FindIndex(s[1..], pid)
      case None => None
      case Some(k) => Some(k + 1)
  }

  /** `a` can be obtained from `b` by dropping elements, keeping the order of the rest. */
  ghost predicate IsSubsequence<T>(a: seq<T>, b: seq<T>)
    decreases |b|
  {
    if |a| == 0 then true
    else if |b| == 0 then false
    else (a[0] == b[0] && IsSubsequence(a[1..], b[1..])) || IsSubsequence(a, b[1..])
  }

  /** `filter(task => task.id !== id)`: every task carrying the path id is dropped. */
  function RemoveId(s: seq<Task>, pid: Option<int>): (r: seq<Task>)
    ensures IsSubsequence(r, s)
    ensures forall t :: multiset(r)[t] == if Matches(t, pid) then 0 else multiset(s)[t]
    ensures |r| == |s| <==> NoMatch(s, pid)
    ensures |r| <= |s|
  {
    if |s| == 0 then []
    else
      assert s == [s[0]] + s[1..];
      if Matches(s[0], pid) then RemoveId(s[1..], pid)
      else [s[0]] + RemoveId(s[1..], pid)
  }
}

=== FILE: Wrappers.dfy ===
/** An optional value. */
module Wrappers {

  /** `None` is an absent value; for a path id it stands for a parse that gave NaN. */
  datatype Option<+T> = None | Some(value: T)
}
